=== FILE: README.md ===
# Crashlytics FileStore — a Dafny model

This project models `FileStore`, the storage layout layer of the Firebase
Crashlytics Android SDK. The layer divides an app-private base directory into
three zones:

- a versioned root `.com.google.firebase.crashlytics.files.v1` for common files;
- `open-sessions`, with one sub-directory per session id;
- `prepared-reports`, a flat directory of report files named by session id,
  optionally suffixed `.priority` or `.native`.

The host filesystem (`java.io.File`) is modelled abstractly in `filesystem.dfy`.
A path is a `seq<string>` of components, and the empty path is the always-present
root. A state is a `map<Path, Kind>` with `Kind = File | Dir`. Its invariant
`WellFormed` says that every entry's parent is an existing directory. Each
`FileStore` operation is a transformer of such states: it takes the state before
the call and, when it writes, returns the state after it. The constructor's
fatal `IllegalStateException` becomes `Err(CouldNotCreateDir(dir))`. A step
that can throw returns an `Outcome`: its result together with the state it
leaves on disk, which after a failure still holds what the step did before it
threw.

Files:

- `wrappers.dfy`: `Option` (a Java reference that may be null) and `Result` (a value or a thrown error).
- `filesystem.dfy`: the host filesystem: `Delete`, `Mkdirs`, `ListFiles`, `List`, the well-formedness invariant.
- `file_store.dfy`: the `FileStore` class: `PrepareDir`, the constructor `New`, `RecursiveDelete` and every accessor.
- `properties.dfy`: layout facts, plus one session's lifecycle as a scenario.

Directory listings come back in an order the host chooses. A listing's contract
is therefore that it holds each expected entry exactly once (`Enumerates`).

## Model

| member | source | states |
|---|---|---|
| FileStore.PrepareDir | firebase-crashlytics/src/main/java/com/google/firebase/crashlytics/internal/persistence/FileStore.java:164-181 | An existing directory leaves the state unchanged. A plain file at the path is replaced by a directory, and this succeeds exactly when the host allows the directory to be made. A missing path is made along with its missing ancestors; this succeeds exactly when the host allows it and no ancestor is a plain file. Otherwise the error names the directory, and the state is the original one with any plain file at the path deleted. On success the result is the path, and the path and all its ancestors are directories. Either way only the path and its ancestors changed, and the state stays well-formed. |
| FileStore.LayoutOf | firebase-crashlytics/src/main/java/com/google/firebase/crashlytics/internal/persistence/FileStore.java:81-85 | The constructor's three directories: the versioned root is a child of the base directory, and `open-sessions` and `prepared-reports` are children of the root. |
| FileStore.LegacyDir | firebase-crashlytics/src/main/java/com/google/firebase/crashlytics/internal/persistence/FileStore.java:88 | The legacy root is a sibling of the versioned root, with the unversioned name; neither lies below the other. |
| FileStore.NullableArrayToList | firebase-crashlytics/src/main/java/com/google/firebase/crashlytics/internal/persistence/FileStore.java:183-185 | A null listing becomes the empty list; any other listing is returned as it is. |
| FileStore.SessionDir | firebase-crashlytics/src/main/java/com/google/firebase/crashlytics/internal/persistence/FileStore.java:128 | A session's directory is the child of `open-sessions` named by the session id. |
| FileSystem.Child | firebase-crashlytics/src/main/java/com/google/firebase/crashlytics/internal/persistence/FileStore.java:120 | `new File(dir, name)` is a direct child of `dir` named `name`, and lies strictly below `dir`. |
| FileStore.PrepareSucceedsBelowDir | firebase-crashlytics/src/main/java/com/google/firebase/crashlytics/internal/persistence/FileStore.java:177-179 | If the parent is an existing directory, preparing a directory succeeds exactly when it already is a directory or the host allows it to be made. |
| FileStore.New | firebase-crashlytics/src/main/java/com/google/firebase/crashlytics/internal/persistence/FileStore.java:70-85 | After construction, the versioned root below the base directory, `open-sessions` and `prepared-reports` all exist as directories, and the latter two are children of the root. Over an existing base directory, a failure names the first directory, in the order root, `open-sessions`, `prepared-reports`, that neither is a directory nor may be made. When that is the root, any plain file at the root has been deleted and nothing else has changed. Over an existing base directory, construction succeeds exactly when each of the three directories either already is a directory or the host allows it to be made. This holds even when a plain file sits where the root should be, and a refused directory makes construction throw. Whether it succeeds or fails, entries other than the two zone directories and their ancestors are untouched, any new entry is one of those directories or an ancestor of one, and the state left behind is well-formed. |
| FileStore.RecursiveDelete | firebase-crashlytics/src/main/java/com/google/firebase/crashlytics/internal/persistence/FileStore.java:94-102 | The depth-first delete (children first, then the node) removes every entry at or below the path. Every other entry keeps its kind. The result is true exactly when the path was an entry (any path but the filesystem root, which is never deleted). On a nonexistent path the state is unchanged. |
| FileStore.CleanupLegacyFiles | firebase-crashlytics/src/main/java/com/google/firebase/crashlytics/internal/persistence/FileStore.java:87-92 | Everything at or below the legacy root (a sibling of the versioned root) is removed. Nothing else changes: the versioned root's zone survives whole, and a ready layout stays ready. |
| FileStore.GetCommonFile | firebase-crashlytics/src/main/java/com/google/firebase/crashlytics/internal/persistence/FileStore.java:105-108 | The result is the root's child with the given name, and the root is a directory afterwards. When the root already is a directory, nothing changes. Otherwise the root is prepared again. A plain file at the root is replaced, and this succeeds exactly when the host allows the directory. A missing root is made, and this succeeds exactly when the host allows it and no ancestor is a plain file. On success the root and all its ancestors are directories. The only possible failure is the root's own, and it leaves the state with any plain file at the root deleted. Only the root and its ancestors can change. |
| FileStore.GetCommonFiles | firebase-crashlytics/src/main/java/com/google/firebase/crashlytics/internal/persistence/FileStore.java:110-113 | Each entry directly inside the root whose name the filter accepts appears exactly once. If the root is not a directory (a null listing), the result is the empty list. |
| FileStore.GetSessionFile | firebase-crashlytics/src/main/java/com/google/firebase/crashlytics/internal/persistence/FileStore.java:115-121 | The file's parent is the session's directory, whose parent is `open-sessions`. The directory is named by the session id and the file by the filename. |
| FileStore.GetSessionFiles | firebase-crashlytics/src/main/java/com/google/firebase/crashlytics/internal/persistence/FileStore.java:123-125 | Each accepted entry directly inside the session's directory appears exactly once. If that directory does not exist or is not a directory, the result is the empty list. |
| FileStore.DeleteSessionFiles | firebase-crashlytics/src/main/java/com/google/firebase/crashlytics/internal/persistence/FileStore.java:127-130 | Only entries under the session's directory are removed, and afterwards nothing is listed there. The id is no longer among the open sessions, and other sessions' files survive. The result is true exactly when the session directory existed. |
| FileStore.GetAllOpenSessionIds | firebase-crashlytics/src/main/java/com/google/firebase/crashlytics/internal/persistence/FileStore.java:132-134 | An id is listed, exactly once, when and only when its session directory entry exists. Nothing is listed when `open-sessions` is not a directory. |
| FileStore.GetReportFile | firebase-crashlytics/src/main/java/com/google/firebase/crashlytics/internal/persistence/FileStore.java:136-138 | The default report is a direct child of `prepared-reports`, named by the session id. |
| FileStore.GetPriorityReportFile | firebase-crashlytics/src/main/java/com/google/firebase/crashlytics/internal/persistence/FileStore.java:140-143 | The priority report is a direct child of `prepared-reports`, named by the id followed by `.priority`. |
| FileStore.GetNativeReportFile | firebase-crashlytics/src/main/java/com/google/firebase/crashlytics/internal/persistence/FileStore.java:145-147 | The native report is a direct child of `prepared-reports`, named by the id followed by `.native`. |
| FileStore.GetAllReportFiles | firebase-crashlytics/src/main/java/com/google/firebase/crashlytics/internal/persistence/FileStore.java:149-151 | Every entry directly inside `prepared-reports` appears exactly once. If it is not a directory, the result is the empty list. |
| FileStore.DeleteReport | firebase-crashlytics/src/main/java/com/google/firebase/crashlytics/internal/persistence/FileStore.java:153-162 | If nothing exists at the default report path, the result is false and the state is unchanged. Otherwise exactly that path is removed, when it is a plain file or an empty directory. Every other entry survives unchanged. |
| FileSystem.Delete | firebase-crashlytics/src/main/java/com/google/firebase/crashlytics/internal/persistence/FileStore.java:101 | `File.delete` as the model assumes it: it removes a plain file or an empty directory and nothing else. It fails, changing nothing, on an absent path, the root or a non-empty directory. It keeps the state well-formed. |
| FileSystem.Mkdirs | firebase-crashlytics/src/main/java/com/google/firebase/crashlytics/internal/persistence/FileStore.java:177 | `File.mkdirs` succeeds exactly when the host grants it, the path does not exist and no ancestor is a plain file. It then makes the path and every ancestor directories. Existing entries are untouched, and the state stays well-formed. |
| FileSystem.ListFiles | firebase-crashlytics/src/main/java/com/google/firebase/crashlytics/internal/persistence/FileStore.java:95 | `File.listFiles` is null exactly when the path is not a directory. Otherwise it holds each accepted direct child exactly once. |
| FileSystem.List | firebase-crashlytics/src/main/java/com/google/firebase/crashlytics/internal/persistence/FileStore.java:133 | `File.list` is null exactly when the path is not a directory. Otherwise it holds each direct child's name exactly once. |
| FileStoreProperties.ZonesDisjoint | firebase-crashlytics/src/main/java/com/google/firebase/crashlytics/internal/persistence/FileStore.java:45-63 | No path lies in both the sessions zone and the reports zone. |
| FileStoreProperties.CommonFileOutsideZones | firebase-crashlytics/src/main/java/com/google/firebase/crashlytics/internal/persistence/FileStore.java:105-108 | A common file lies outside both zones unless its name is `open-sessions` or `prepared-reports`. |
| FileStoreProperties.SessionAndReportFilesApart | firebase-crashlytics/src/main/java/com/google/firebase/crashlytics/internal/persistence/FileStore.java:119-138 | Session files lie in the sessions zone and never in the reports zone. Report files lie in the reports zone and never in the sessions zone. |
| FileStoreProperties.SessionFilesDisjoint | firebase-crashlytics/src/main/java/com/google/firebase/crashlytics/internal/persistence/FileStore.java:119-121 | Two different session ids never share a file, and no file of one session lies under the other session's directory. |
| FileStoreProperties.ReportFilesDistinct | firebase-crashlytics/src/main/java/com/google/firebase/crashlytics/internal/persistence/FileStore.java:136-147 | The default, priority and native report paths of one id are pairwise distinct, and each is a direct child of `prepared-reports`. |
| FileStoreProperties.SuffixedReportIsDefaultReport | firebase-crashlytics/src/main/java/com/google/firebase/crashlytics/internal/persistence/FileStore.java:140-147 | The priority report of `s` is the default report of `s + ".priority"`, and the native report of `s` is the default report of `s + ".native"`. |
| FileStoreProperties.ReportFilesNeverCollide | firebase-crashlytics/src/main/java/com/google/firebase/crashlytics/internal/persistence/FileStore.java:136-147 | For ids without a dot, a report path determines both the session id and the report kind. |
| FileStoreProperties.ReportFilesCollideForDottedIds | firebase-crashlytics/src/main/java/com/google/firebase/crashlytics/internal/persistence/FileStore.java:136-142 | Without that restriction paths do collide: the default report of `abc.priority` is the priority report of `abc`. |
| FileStoreProperties.DeleteReportKeepsVariants | firebase-crashlytics/src/main/java/com/google/firebase/crashlytics/internal/persistence/FileStore.java:153-162 | Deleting a session's default report leaves its `.priority` and `.native` reports in place. |
| FileStoreProperties.NewIsIdempotent | firebase-crashlytics/src/main/java/com/google/firebase/crashlytics/internal/persistence/FileStore.java:81-85 | Constructing over a layout whose three directories already exist yields that layout and changes nothing, whatever the host allows. |
| FileStoreProperties.PrepareDirIsIdempotent | firebase-crashlytics/src/main/java/com/google/firebase/crashlytics/internal/persistence/FileStore.java:164-168 | Preparing a directory a second time returns the state the first preparation produced. |
| FileStoreProperties.FreshStoreHasNoSessions | firebase-crashlytics/src/main/java/com/google/firebase/crashlytics/internal/persistence/FileStore.java:81-85 | Constructing over a base directory with nothing below it creates no session directory. |
| FileStoreProperties.DeletedSessionLeavesNone | firebase-crashlytics/src/main/java/com/google/firebase/crashlytics/internal/persistence/FileStore.java:127-134 | Once the only open session is deleted and no longer listed, no session directory is left. |
| FileStoreProperties.NewFailsWhenHostRefuses | firebase-crashlytics/src/main/java/com/google/firebase/crashlytics/internal/persistence/FileStore.java:176-179 | On a device whose files directory is empty and whose host refuses every `mkdirs`, the constructor throws, naming the versioned root. |
| FileStoreProperties.OpenFreshStore | firebase-crashlytics/src/main/java/com/google/firebase/crashlytics/internal/persistence/FileStore.java:81-85 | Constructing the store on a device whose files directory is empty succeeds, the layout is ready, and no session is listed. |
| FileStoreProperties.OpenFirstSession | firebase-crashlytics/src/main/java/com/google/firebase/crashlytics/internal/persistence/FileStore.java:119-134 | After a caller writes a first session's file, that session is the only one listed. |
| FileStoreProperties.CloseOnlySession | firebase-crashlytics/src/main/java/com/google/firebase/crashlytics/internal/persistence/FileStore.java:127-134 | Deleting the files of the only open session returns true, and afterwards no session is listed. |
| FileStoreProperties.SessionLifecycle | firebase-crashlytics/src/main/java/com/google/firebase/crashlytics/internal/persistence/FileStore.java:119-134 | On a fresh base directory, no session is open at first. Once a file of session `abc` is written, only `abc` is open. Deleting the session's files succeeds, and afterwards no session is open. |

## Left out

- Logging: the `Logger` calls only produce diagnostics and never affect control flow.
- Concurrency: the lock that `synchronized` takes on `prepareDir` is not modelled. All operations are treated as sequential.
- Android `Context`: the base directory that `context.getFilesDir()` returns is a parameter of `New`.
- Path syntax: `java.io.File` separators, normalisation and permissions are not modelled. A session id or filename is always one opaque path component. In Java, an id containing `/`, or an empty id, would address a different path; `deleteSessionFiles("")`, for example, would address `open-sessions` itself.
- Host failures: `mkdirs` is refused only through the `canMake` parameter, which is decided per target directory rather than per created ancestor. Deleting a plain file or an empty directory always succeeds. Listing an existing directory always succeeds.
- FileStore.RecursiveDelete: the model's contract covers only the case where every single delete succeeds, so `recursiveDelete`'s best-effort behaviour after a failure deep in the tree is not modelled.
- File contents, timestamps and the order of directory listings are not modelled. The host picks the order of a listing.
- `FilenameFilter`: a filter is any `string -> bool` on entry names. Its directory argument is always the listed directory, so it is not passed.
- `DashboardFragment.java` is not part of this model. It is UI glue with no storage logic.
- The constructor creates all three directories eagerly. Later, only `getCommonFile` re-creates a directory (the root); the zone directories are not re-created.
- Writing session and report files is done by the SDK's callers, not by this class. The lifecycle scenario models such a write directly, as adding the session directory and the file.

=== FILE: file_store.dfy ===
/**
 * The on-device storage layout of the crash reporter. An app-private base
 * directory holds one versioned root; below it, `open-sessions` keeps one
 * sub-directory per session and `prepared-reports` keeps finished reports as
 * flat files named by session id, optionally suffixed `.priority` or `.native`.
 *
 * Every operation is a pure transformer of the filesystem state: it takes the
 * state before the call and, when it writes, returns the state after it.
 */
module FileStore {
  import opened Wrappers
  import opened FileSystem

  const FilesPath := ".com.google.firebase.crashlytics.files.v1"
  const SessionsPath := "open-sessions"
  const PreparedReportsPath := "prepared-reports"
  const PriorityReportExtension := ".priority"
  const NativeReportExtension := ".native"
  /** The unversioned root used by an earlier on-disk layout. */
  const LegacyFilesPath := ".com.google.firebase.crashlytics"

  /** The fatal construction error: a required directory could not be made. */
  datatype Error = CouldNotCreateDir(dir: Path)

  datatype Store = Store(rootDir: Path, sessionsDir: Path, reportsDir: Path)

  /** The shape of the three directories, whatever is on disk. */
  ghost predicate Layout(st: Store) {
    && st.rootDir != []
    && Name(st.rootDir) == FilesPath
    && st.sessionsDir == Child(st.rootDir, SessionsPath)
    && st.reportsDir == Child(st.rootDir, PreparedReportsPath)
  }

  /** The layout holds and all three directories exist as directories. */
  ghost predicate Ready(st: Store, fs: FS) {
    && Layout(st)
    && WellFormed(fs)
    && IsDir(fs, st.rootDir)
    && IsDir(fs, st.sessionsDir)
    && IsDir(fs, st.reportsDir)
  }

  /**
   * What a step that may throw leaves behind: its result, and the filesystem
   * state after it either way, since the disk keeps whatever the step did
   * before it failed.
   */
  datatype Outcome<+T> = Outcome(result: Result<T, Error>, after: FS)

  /** `after` differs from `fs` only on `dir` and its ancestors: the paths `mkdirs(dir)` may touch. */
  ghost predicate ChangedOnlyAlong(fs: FS, after: FS, dir: Path) {
    && (forall q | q in fs && !(q <= dir) :: q in after && after[q] == fs[q])
    && (forall q | q in after && q !in fs :: q <= dir)
  }

  /** `after` differs from `fs` only on the two zone directories and their ancestors. */
  ghost predicate ChangedOnlyAlongZones(st: Store, fs: FS, after: FS) {
    && (forall q | q in fs && !(q <= st.sessionsDir) && !(q <= st.reportsDir) :: q in after && after[q] == fs[q])
    && (forall q | q in after && q !in fs :: q <= st.sessionsDir || q <= st.reportsDir)
  }

  /**
   * Makes sure `dir` is a directory and returns it: one that already is stays
   * as it is, a plain file in its place is deleted first, and then the
   * directory is made with `mkdirs`; when that fails the error is fatal, and
   * the plain file stays deleted. `canMake` says whether the host lets
   * `mkdirs` create a given directory.
   */
  function PrepareDir(fs: FS, dir: Path, canMake: Path -> bool): (r: Outcome<Path>)
    requires WellFormed(fs)
    ensures IsDir(fs, dir) ==> r == Outcome(Ok(dir), fs)
    ensures IsFile(fs, dir) ==> (r.result.Ok? <==> canMake(dir))
    ensures !Exists(fs, dir) ==> (r.result.Ok? <==> canMake(dir) && forall a | a < dir :: !IsFile(fs, a))
    ensures r.result.Ok? ==> r.result.value == dir && IsDir(r.after, dir)
    ensures r.result.Ok? ==> forall a | a <= dir :: IsDir(r.after, a)
    ensures r.result.Err? ==> r.result.error == CouldNotCreateDir(dir) && r.after == fs - {dir}
    ensures WellFormed(r.after)
    ensures ChangedOnlyAlong(fs, r.after, dir)
  {
    if IsDir(fs, dir) then
      assert forall a | a <= dir :: IsDir(fs, a) by {
        forall a | a <= dir
          ensures IsDir(fs, a)
        {
          if a != dir {
            AncestorIsDir(fs, dir, a);
          }
        }
      }
      Outcome(Ok(dir), fs)
    else
      var cleared := if IsFile(fs, dir) then Delete(fs, dir).1 else fs;
      assert cleared == fs - {dir};
      assert IsFile(fs, dir) ==> forall a | a < dir :: !IsFile(cleared, a) by {
        if IsFile(fs, dir) {
          forall a | a < dir
            ensures !IsFile(cleared, a)
          {
            AncestorIsDir(fs, dir, a);
          }
        }
      }
      match Mkdirs(cleared, dir, canMake(dir))
      case Some(made) => Outcome(Ok(dir), made)
      case None => Outcome(Err(CouldNotCreateDir(dir)), cleared)
  }

  /**
   * With the parent present as a directory, preparing a directory succeeds
   * exactly when it already is one or the host lets `mkdirs` make it.
   */
  lemma PrepareSucceedsBelowDir(fs: FS, dir: Path, canMake: Path -> bool)
    requires WellFormed(fs) && dir != []
    ensures IsDir(fs, Parent(dir)) ==> (PrepareDir(fs, dir, canMake).result.Ok? <==> IsDir(fs, dir) || canMake(dir))
  {
    if IsDir(fs, Parent(dir)) && !Exists(fs, dir) {
      forall a | a < dir
        ensures !IsFile(fs, a)
      {
        if a != Parent(dir) && Parent(dir) != [] {
          assert a < Parent(dir);
          AncestorIsDir(fs, Parent(dir), a);
        }
      }
    }
  }

  /** The three directories of a store whose base directory is `filesDir`. */
  function LayoutOf(filesDir: Path): (st: Store)
    ensures Layout(st) && Parent(st.rootDir) == filesDir
  {
    var root := Child(filesDir, FilesPath);
    Store(root, Child(root, SessionsPath), Child(root, PreparedReportsPath))
  }

  /**
   * The constructor: prepares the versioned root below `filesDir`, then the
   * sessions directory, then the reports directory, stopping at the first
   * directory that cannot be made.
   */
  function New(fs: FS, filesDir: Path, canMake: Path -> bool): (r: Outcome<Store>)
    requires WellFormed(fs)
    ensures r.result.Ok? ==> r.result.value == LayoutOf(filesDir) && Ready(r.result.value, r.after)
    ensures r.result.Err? ==> r.result.error.dir in {
      LayoutOf(filesDir).rootDir, LayoutOf(filesDir).sessionsDir, LayoutOf(filesDir).reportsDir
    }
    ensures WellFormed(r.after)
    ensures ChangedOnlyAlongZones(LayoutOf(filesDir), fs, r.after)
    ensures IsDir(fs, filesDir) ==> (r.result.Ok? <==>
      && (IsDir(fs, LayoutOf(filesDir).rootDir) || canMake(LayoutOf(filesDir).rootDir))
      && (IsDir(fs, LayoutOf(filesDir).sessionsDir) || canMake(LayoutOf(filesDir).sessionsDir))
      && (IsDir(fs, LayoutOf(filesDir).reportsDir) || canMake(LayoutOf(filesDir).reportsDir)))
    ensures (IsDir(fs, filesDir) && !IsDir(fs, LayoutOf(filesDir).rootDir) && !canMake(LayoutOf(filesDir).rootDir))
      ==> r == Outcome(Err(CouldNotCreateDir(LayoutOf(filesDir).rootDir)), fs - {LayoutOf(filesDir).rootDir})
    ensures (IsDir(fs, filesDir)
      && (IsDir(fs, LayoutOf(filesDir).rootDir) || canMake(LayoutOf(filesDir).rootDir))
      && !IsDir(fs, LayoutOf(filesDir).sessionsDir) && !canMake(LayoutOf(filesDir).sessionsDir))
      ==> r.result == Err(CouldNotCreateDir(LayoutOf(filesDir).sessionsDir))
    ensures (IsDir(fs, filesDir)
      && (IsDir(fs, LayoutOf(filesDir).rootDir) || canMake(LayoutOf(filesDir).rootDir))
      && (IsDir(fs, LayoutOf(filesDir).sessionsDir) || canMake(LayoutOf(filesDir).sessionsDir))
      && !IsDir(fs, LayoutOf(filesDir).reportsDir) && !canMake(LayoutOf(filesDir).reportsDir))
      ==> r.result == Err(CouldNotCreateDir(LayoutOf(filesDir).reportsDir))
  {
    var st := LayoutOf(filesDir);
    PrepareSucceedsBelowDir(fs, st.rootDir, canMake);
    var r1 := PrepareDir(fs, st.rootDir, canMake);
    RootStepWithinZones(st, fs, r1.after);
    KindOffLineageKept(fs, r1.after, st.rootDir, st.sessionsDir);
    KindOffLineageKept(fs, r1.after, st.rootDir, st.reportsDir);
    if r1.result.Err? then
      Outcome(Err(r1.result.error), r1.after)
    else
      PrepareSucceedsBelowDir(r1.after, st.sessionsDir, canMake);
      var r2 := PrepareDir(r1.after, st.sessionsDir, canMake);
      SessionsStepWithinZones(st, fs, r1.after, r2.after);
      KindOffLineageKept(r1.after, r2.after, st.sessionsDir, st.reportsDir);
      if r2.result.Err? then
        Outcome(Err(r2.result.error), r2.after)
      else
        assert IsDir(r2.after, st.rootDir) by {
          assert st.rootDir <= st.sessionsDir;
        }
        PrepareSucceedsBelowDir(r2.after, st.reportsDir, canMake);
        var r3 := PrepareDir(r2.after, st.reportsDir, canMake);
        ReportsStepWithinZones(st, fs, r2.after, r3.after);
        if r3.result.Err? then
          Outcome(Err(r3.result.error), r3.after)
        else
          PreparedLayout(st, r2.after, r3.after);
          Outcome(Ok(st), r3.after)
  }

  /** Preparing the root touches only ancestors of the zone directories. */
  lemma RootStepWithinZones(st: Store, fs: FS, fs1: FS)
    requires Layout(st) && ChangedOnlyAlong(fs, fs1, st.rootDir)
    ensures ChangedOnlyAlongZones(st, fs, fs1)
  {
  }

  /** Preparing the root and then the sessions directory touches only the sessions directory's lineage. */
  lemma SessionsStepWithinZones(st: Store, fs: FS, fs1: FS, fs2: FS)
    requires Layout(st) && ChangedOnlyAlong(fs, fs1, st.rootDir)
    requires ChangedOnlyAlong(fs1, fs2, st.sessionsDir)
    ensures ChangedOnlyAlongZones(st, fs, fs2)
  {
  }

  /** Preparing the reports directory after the other two stays within the zones' lineages. */
  lemma ReportsStepWithinZones(st: Store, fs: FS, fs2: FS, fs3: FS)
    requires ChangedOnlyAlongZones(st, fs, fs2)
    requires ChangedOnlyAlong(fs2, fs3, st.reportsDir)
    ensures ChangedOnlyAlongZones(st, fs, fs3)
  {
  }

  /** The last preparation keeps the sessions directory and completes the layout. */
  lemma PreparedLayout(st: Store, fs2: FS, fs3: FS)
    requires Layout(st) && WellFormed(fs3)
    requires IsDir(fs2, st.sessionsDir)
    requires forall a | a <= st.reportsDir :: IsDir(fs3, a)
    requires ChangedOnlyAlong(fs2, fs3, st.reportsDir)
    ensures Ready(st, fs3)
  {
  }

  /** A step that changes only the lineage of `dir` keeps the kind of every path off it. */
  lemma KindOffLineageKept(fs: FS, after: FS, dir: Path, p: Path)
    requires ChangedOnlyAlong(fs, after, dir) && !(p <= dir)
    ensures IsDir(after, p) <==> IsDir(fs, p)
  {
  }

  /** The entries at or below `p` in `fs`, together with `p` itself. */
  ghost function Footprint(fs: FS, p: Path): set<Path> {
    (set q | q in fs.Keys && p <= q) + {p}
  }

  /** Some entry among the first `n` of `roots` is `q` or an ancestor of it. */
  ghost predicate Covered(roots: seq<Path>, n: int, q: Path) {
    exists j | 0 <= j < n && j < |roots| :: roots[j] <= q
  }

  /** `mid` is `fs` with some entries removed and nothing else changed. */
  ghost predicate Shrunk(fs: FS, mid: FS) {
    forall q | q in mid :: q in fs && mid[q] == fs[q]
  }

  /** Deleting below a child of `p` in a shrunk state works on a smaller footprint. */
  lemma FootprintShrinks(fs: FS, mid: FS, p: Path, c: Path)
    requires Shrunk(fs, mid) && c in Children(fs, p)
    ensures Footprint(mid, c) < Footprint(fs, p)
  {
  }

  /** Deleting the subtree of the `i`-th listed entry extends what the first `i` deletions removed. */
  lemma CoveredOneMore(fs: FS, mid: FS, next: FS, files: seq<Path>, i: nat)
    requires i < |files|
    requires forall q | q in mid :: !Covered(files, i, q)
    requires forall q | q in fs && !Covered(files, i, q) :: q in mid
    requires forall q | q in next :: q in mid && !(files[i] <= q)
    requires forall q | q in mid && !(files[i] <= q) :: q in next
    ensures forall q | q in next :: !Covered(files, i + 1, q)
    ensures forall q | q in fs && !Covered(files, i + 1, q) :: q in next
  {
  }

  /** Once every child of `p` has been deleted recursively, nothing is left strictly below `p`. */
  lemma AllChildrenCovered(fs: FS, p: Path, files: seq<Path>)
    requires WellFormed(fs) && Enumerates(files, Matching(fs, p, _ => true))
    ensures forall q | q in fs && p < q :: Covered(files, |files|, q)
  {
    forall q | q in fs && p < q
      ensures Covered(files, |files|, q)
    {
      var c := q[..|p| + 1];
      if c != q {
        AncestorIsDir(fs, q, c);
      }
      assert c in Matching(fs, p, _ => true);
      var j :| 0 <= j < |files| && files[j] == c;
    }
  }

  /** With nothing left strictly below `p`, the final `delete` removes exactly `p` if it exists. */
  lemma DeleteEmptied(fs: FS, mid: FS, p: Path)
    requires WellFormed(fs) && WellFormed(mid) && Shrunk(fs, mid)
    requires forall q | q in mid :: !(p < q)
    requires forall q | q in fs && !(p < q) :: q in mid
    ensures Delete(mid, p).0 <==> p in fs
    ensures Shrunk(fs, Delete(mid, p).1)
    ensures forall q | q in Delete(mid, p).1 :: !(p <= q)
    ensures forall q | q in fs && !(p <= q) :: q in Delete(mid, p).1
  {
    var r := Delete(mid, p);
    assert forall q | IsChildOf(q, p) :: p < q;
    assert Children(mid, p) == {};
    if p in mid {
      assert r.0;
      assert r.1.Keys == mid.Keys - {p};
      forall q | q in r.1
        ensures !(p <= q)
      {
        assert q in mid && q != p && !(p < q);
      }
    } else {
      assert p !in fs;
      forall q | q in r.1
        ensures !(p <= q)
      {
        assert q in mid && q != p && !(p < q);
      }
    }
  }

  /**
   * Depth-first delete: each entry listed in `p` is deleted recursively, then
   * `p` itself. Reports whether `p` itself was removed.
   */
  method RecursiveDelete(fs: FS, p: Path) returns (deleted: bool, fs': FS)
    requires WellFormed(fs)
    ensures WellFormed(fs')
    ensures deleted <==> p in fs
    ensures forall q | q in fs' :: q in fs && fs'[q] == fs[q]
    ensures forall q | q in fs' :: !(p <= q)
    ensures forall q | q in fs && !(p <= q) :: q in fs'
    ensures !Exists(fs, p) ==> fs' == fs
    decreases Footprint(fs, p)
  {
    var listing := ListFiles(fs, p, _ => true);
    var mid := fs;
    if listing.Some? {
      var files := listing.value;
      var i := 0;
      while i < |files|
        invariant 0 <= i <= |files|
        invariant WellFormed(mid) && Shrunk(fs, mid)
        invariant forall q | q in mid :: !Covered(files, i, q)
        invariant forall q | q in fs && !Covered(files, i, q) :: q in mid
        decreases |files| - i
      {
        var c := files[i];
        FootprintShrinks(fs, mid, p, c);
        var _, next := RecursiveDelete(mid, c);
        CoveredOneMore(fs, mid, next, files, i);
        mid := next;
        i := i + 1;
      }
      AllChildrenCovered(fs, p, files);
    } else {
      forall q | q in fs
        ensures !(p < q)
      {
        NothingBelowNonDir(fs, p, q);
      }
    }
    DeleteEmptied(fs, mid, p);
    var outcome := Delete(mid, p);
    deleted, fs' := outcome.0, outcome.1;
    if !Exists(fs, p) {
      forall q | q in fs
        ensures q in fs'
      {
        NothingBelowNonDir(fs, p, q);
      }
    }
  }

  /** Turns a listing that may be null into a list, empty when it is null. */
  function NullableArrayToList<T>(listing: Option<seq<T>>): (r: seq<T>)
    ensures listing.None? ==> r == []
    ensures listing.Some? ==> r == listing.value
  {
    listing.GetOr([])
  }

  /** The root of the earlier, unversioned layout: a sibling of the current root. */
  function LegacyDir(st: Store): (r: Path)
    requires Layout(st)
    ensures r != [] && Parent(r) == Parent(st.rootDir) && Name(r) == LegacyFilesPath
    ensures !(r <= st.rootDir) && !(st.rootDir <= r)
  {
    Child(Parent(st.rootDir), LegacyFilesPath)
  }

  /** Deletes the earlier layout's root and everything below it. */
  method CleanupLegacyFiles(st: Store, fs: FS) returns (fs': FS)
    requires Layout(st) && WellFormed(fs)
    ensures WellFormed(fs')
    ensures forall q | q in fs' :: !(LegacyDir(st) <= q)
    ensures forall q | q in fs' :: q in fs && fs'[q] == fs[q]
    ensures forall q | q in fs && !(LegacyDir(st) <= q) :: q in fs'
    ensures forall q | q in fs && st.rootDir <= q :: q in fs'
    ensures Ready(st, fs) ==> Ready(st, fs')
  {
    var legacy := LegacyDir(st);
    forall q | q in fs && st.rootDir <= q
      ensures !(legacy <= q)
    {
      assert q[|legacy| - 1] == FilesPath;
    }
    var _, after := RecursiveDelete(fs, legacy);
    fs' := after;
  }

  /**
   * A file of the root zone, not tied to any session. The root directory is
   * prepared again first, so this can fail fatally like the constructor.
   */
  function GetCommonFile(st: Store, fs: FS, filename: string, canMake: Path -> bool): (r: Outcome<Path>)
    requires Layout(st) && WellFormed(fs)
    ensures r.result.Ok? ==>
      r.result.value != [] && Parent(r.result.value) == st.rootDir && Name(r.result.value) == filename
    ensures r.result.Ok? ==> forall a | a <= st.rootDir :: IsDir(r.after, a)
    ensures IsDir(fs, st.rootDir) ==> r.result.Ok? && r.after == fs
    ensures IsFile(fs, st.rootDir) ==> (r.result.Ok? <==> canMake(st.rootDir))
    ensures !Exists(fs, st.rootDir) ==>
      (r.result.Ok? <==> canMake(st.rootDir) && forall a | a < st.rootDir :: !IsFile(fs, a))
    ensures r.result.Err? ==> r.result.error == CouldNotCreateDir(st.rootDir) && r.after == fs - {st.rootDir}
    ensures WellFormed(r.after) && ChangedOnlyAlong(fs, r.after, st.rootDir)
  {
    var prepared := PrepareDir(fs, st.rootDir, canMake);
    match prepared.result
    case Ok(root) => Outcome(Ok(Child(root, filename)), prepared.after)
    case Err(e) => Outcome(Err(e), prepared.after)
  }

  /** The common files whose names the filter accepts; empty when the root is not a directory. */
  method GetCommonFiles(st: Store, fs: FS, accept: string -> bool) returns (files: seq<Path>)
    requires WellFormed(fs)
    ensures Enumerates(files, Matching(fs, st.rootDir, accept))
    ensures !IsDir(fs, st.rootDir) ==> files == []
  {
    var listing := ListFiles(fs, st.rootDir, accept);
    if listing.None? {
      NothingInNonDir(fs, st.rootDir);
    }
    files := NullableArrayToList(listing);
  }

  /** The directory of one session. */
  function SessionDir(st: Store, sessionId: string): (r: Path)
    ensures r != [] && Parent(r) == st.sessionsDir && Name(r) == sessionId
  {
    Child(st.sessionsDir, sessionId)
  }

  /** A file in the directory of the given session; the directory is not created. */
  function GetSessionFile(st: Store, sessionId: string, filename: string): (r: Path)
    ensures r != [] && Parent(r) != []
    ensures Parent(Parent(r)) == st.sessionsDir
    ensures Name(Parent(r)) == sessionId && Name(r) == filename
  {
    Child(SessionDir(st, sessionId), filename)
  }

  /** The files of a session whose names the filter accepts; empty when the session has no directory. */
  method GetSessionFiles(st: Store, fs: FS, sessionId: string, accept: string -> bool) returns (files: seq<Path>)
    requires WellFormed(fs)
    ensures Enumerates(files, Matching(fs, SessionDir(st, sessionId), accept))
    ensures !IsDir(fs, SessionDir(st, sessionId)) ==> files == []
  {
    var listing := ListFiles(fs, SessionDir(st, sessionId), accept);
    if listing.None? {
      NothingInNonDir(fs, SessionDir(st, sessionId));
    }
    files := NullableArrayToList(listing);
  }

  /**
   * Deletes a session's directory with everything in it. Reports whether the
   * session directory itself was removed.
   */
  method DeleteSessionFiles(st: Store, fs: FS, sessionId: string) returns (deleted: bool, fs': FS)
    requires WellFormed(fs)
    ensures WellFormed(fs')
    ensures deleted <==> SessionDir(st, sessionId) in fs
    ensures forall q | q in fs' :: q in fs && fs'[q] == fs[q]
    ensures forall q | q in fs && !(SessionDir(st, sessionId) <= q) :: q in fs'
    ensures Children(fs', SessionDir(st, sessionId)) == {}
    ensures sessionId !in NamesIn(fs', st.sessionsDir)
    ensures forall other, filename | other != sessionId && GetSessionFile(st, other, filename) in fs ::
      GetSessionFile(st, other, filename) in fs'
    ensures Ready(st, fs) ==> Ready(st, fs')
  {
    var dir := SessionDir(st, sessionId);
    deleted, fs' := RecursiveDelete(fs, dir);
    assert Children(fs', dir) == {} by {
      assert forall q | IsChildOf(q, dir) :: dir <= q;
    }
    NamesInIsChildren(fs', st.sessionsDir, sessionId);
    forall other, filename | other != sessionId && GetSessionFile(st, other, filename) in fs
      ensures GetSessionFile(st, other, filename) in fs'
    {
      var f := GetSessionFile(st, other, filename);
      assert f[|dir| - 1] == other;
    }
  }

  /** The ids of all sessions with an entry in the sessions directory. */
  method GetAllOpenSessionIds(st: Store, fs: FS) returns (ids: seq<string>)
    requires WellFormed(fs)
    ensures Enumerates(ids, NamesIn(fs, st.sessionsDir))
    ensures forall i | 0 <= i < |ids| :: SessionDir(st, ids[i]) in fs
    ensures forall sessionId | SessionDir(st, sessionId) in fs :: sessionId in ids
  {
    var listing := List(fs, st.sessionsDir);
    if listing.None? {
      NothingInNonDir(fs, st.sessionsDir);
      assert NamesIn(fs, st.sessionsDir) == {};
    }
    ids := NullableArrayToList(listing);
    forall sessionId
      ensures sessionId in ids <==> SessionDir(st, sessionId) in fs
    {
      NamesInIsChildren(fs, st.sessionsDir, sessionId);
    }
  }

  /** The default report of a session: a direct child of the reports directory named by the id. */
  function GetReportFile(st: Store, sessionId: string): (r: Path)
    ensures r != [] && Parent(r) == st.reportsDir && Name(r) == sessionId
  {
    Child(st.reportsDir, sessionId)
  }

  function GetPriorityReportFile(st: Store, sessionId: string): (r: Path)
    ensures r != [] && Parent(r) == st.reportsDir && Name(r) == sessionId + PriorityReportExtension
  {
    GetReportFile(st, sessionId + PriorityReportExtension)
  }

  function GetNativeReportFile(st: Store, sessionId: string): (r: Path)
    ensures r != [] && Parent(r) == st.reportsDir && Name(r) == sessionId + NativeReportExtension
  {
    GetReportFile(st, sessionId + NativeReportExtension)
  }

  /** Every entry directly inside the reports directory; empty when it is not a directory. */
  method GetAllReportFiles(st: Store, fs: FS) returns (files: seq<Path>)
    requires WellFormed(fs)
    ensures Enumerates(files, Children(fs, st.reportsDir))
    ensures !IsDir(fs, st.reportsDir) ==> files == []
  {
    var listing := ListFiles(fs, st.reportsDir, _ => true);
    if listing.None? {
      NothingInNonDir(fs, st.reportsDir);
    }
    assert Matching(fs, st.reportsDir, _ => true) == Children(fs, st.reportsDir);
    files := NullableArrayToList(listing);
  }

  /**
   * Deletes the default report of a session, and only that path. When nothing
   * is there it returns false; a directory at that path is deleted only if empty.
   */
  function DeleteReport(st: Store, fs: FS, sessionId: string): (r: (bool, FS))
    requires WellFormed(fs)
    ensures WellFormed(r.1)
    ensures r.0 <==> (
      || IsFile(fs, GetReportFile(st, sessionId))
      || (IsDir(fs, GetReportFile(st, sessionId)) && Children(fs, GetReportFile(st, sessionId)) == {}))
    ensures !r.0 ==> r.1 == fs
    ensures r.0 ==> r.1.Keys == fs.Keys - {GetReportFile(st, sessionId)}
    ensures forall q | q in r.1 :: q in fs && r.1[q] == fs[q]
    ensures forall q | q in fs && q != GetReportFile(st, sessionId) :: q in r.1
  {
    var report := GetReportFile(st, sessionId);
    if Exists(fs, report) then Delete(fs, report) else (false, fs)
  }
}

=== FILE: filesystem.dfy ===
/**
 * An abstract hierarchical filesystem, standing for the part of `java.io.File`
 * that the storage layer relies on: existence and kind queries, `delete`,
 * `mkdirs`, `listFiles` and `list`.
 *
 * A path is the sequence of its components. The empty path is the filesystem
 * root: it always exists, is always a directory and is never a key of the map.
 */
module FileSystem {
  import opened Wrappers

  type Path = seq<string>

  datatype Kind = File | Dir

  /** The kind of every existing entry other than the root. */
  type FS = map<Path, Kind>

  function Parent(p: Path): Path
    requires p != []
  {
    p[..|p| - 1]
  }

  /** The last component of a path: what `File.getName` returns. */
  function Name(p: Path): string
    requires p != []
  {
    p[|p| - 1]
  }

  /** `new File(dir, name)`. */
  function Child(dir: Path, name: string): (r: Path)
    ensures r != [] && Parent(r) == dir && Name(r) == name
    ensures dir < r
  {
    dir + [name]
  }

  predicate Exists(fs: FS, p: Path) {
    p == [] || p in fs
  }

  predicate IsDir(fs: FS, p: Path) {
    p == [] || (p in fs && fs[p] == Dir)
  }

  predicate IsFile(fs: FS, p: Path) {
    p in fs && fs[p] == File
  }

  /** Every entry hangs below a directory that exists. */
  ghost predicate WellFormed(fs: FS) {
    forall q | q in fs :: q != [] && IsDir(fs, Parent(q))
  }

  predicate IsChildOf(q: Path, dir: Path) {
    |q| == |dir| + 1 && dir <= q
  }

  /** The entries directly inside `dir`. */
  function Children(fs: FS, dir: Path): set<Path> {
    set q | q in fs.Keys && IsChildOf(q, dir)
  }

  /** The entries directly inside `dir` whose names the filter accepts. */
  function Matching(fs: FS, dir: Path, accept: string -> bool): set<Path> {
    set q | q in Children(fs, dir) && accept(Name(q))
  }

  /** The names of the entries directly inside `dir`. */
  function NamesIn(fs: FS, dir: Path): set<string> {
    set q | q in Children(fs, dir) :: Name(q)
  }

  /** Every proper ancestor of an entry is an existing directory. */
  lemma {:induction false} AncestorIsDir(fs: FS, q: Path, a: Path)
    requires WellFormed(fs) && q in fs && a < q
    ensures IsDir(fs, a)
    decreases |q|
  {
    var up := Parent(q);
    assert IsDir(fs, up);
    if up != a {
      assert up == q[..|q| - 1];
      assert a < up;
      AncestorIsDir(fs, up, a);
    }
  }

  /** A plain file or an absent path has nothing below it. */
  lemma NothingBelowNonDir(fs: FS, p: Path, q: Path)
    requires WellFormed(fs) && !IsDir(fs, p) && q in fs
    ensures !(p < q)
  {
    if p < q {
      AncestorIsDir(fs, q, p);
    }
  }

  /** A path that is not a directory lists nothing. */
  lemma NothingInNonDir(fs: FS, dir: Path)
    requires WellFormed(fs) && !IsDir(fs, dir)
    ensures Children(fs, dir) == {}
  {
    forall q | q in fs
      ensures !IsChildOf(q, dir)
    {
      NothingBelowNonDir(fs, dir, q);
    }
  }

  /**
   * `File.delete`: removes a plain file or an empty directory and reports
   * success; an absent path, the root, or a directory that still has entries
   * is left alone and `false` is returned.
   */
  function Delete(fs: FS, p: Path): (r: (bool, FS))
    requires WellFormed(fs)
    ensures WellFormed(r.1)
    ensures r.0 <==> IsFile(fs, p) || (IsDir(fs, p) && p != [] && Children(fs, p) == {})
    ensures r.0 ==> r.1.Keys == fs.Keys - {p}
    ensures forall q | q in r.1 :: q in fs && r.1[q] == fs[q]
    ensures !r.0 ==> r.1 == fs
  {
    if p in fs && (fs[p] == File || Children(fs, p) == {}) then
      (true, fs - {p})
    else
      (false, fs)
  }

  /** `p` and each of its ancestors except the root. */
  function Lineage(p: Path): set<Path> {
    set i | 1 <= i <= |p| :: p[..i]
  }

  /** No ancestor of `p` is a plain file: the condition for `mkdirs` to reach `p`. */
  predicate OpenLineage(fs: FS, p: Path) {
    forall i | 1 <= i < |p| :: !IsFile(fs, p[..i])
  }

  lemma OpenLineageMeansNoFileAbove(fs: FS, p: Path)
    requires WellFormed(fs)
    ensures OpenLineage(fs, p) <==> forall a | a < p :: !IsFile(fs, a)
  {
    if OpenLineage(fs, p) {
      forall a | a < p
        ensures !IsFile(fs, a)
      {
        if a != [] {
          assert a == p[..|a|];
        }
      }
    }
  }

  /**
   * `File.mkdirs`: creates `p` together with every missing ancestor. It fails
   * when `p` already exists, when some ancestor is a plain file, or when the
   * host refuses (`granted` is false: permissions, no space).
   */
  function Mkdirs(fs: FS, p: Path, granted: bool): (r: Option<FS>)
    requires WellFormed(fs)
    ensures r.Some? <==> granted && !Exists(fs, p) && forall a | a < p :: !IsFile(fs, a)
    ensures r.Some? ==> WellFormed(r.value)
    ensures r.Some? ==> forall a | a <= p :: IsDir(r.value, a)
    ensures r.Some? ==> forall q | q in fs :: q in r.value && r.value[q] == fs[q]
    ensures r.Some? ==> forall q | q in r.value && q !in fs :: q <= p
  {
    OpenLineageMeansNoFileAbove(fs, p);
    if granted && !Exists(fs, p) && OpenLineage(fs, p) then
      var fs' := map q | q in fs.Keys + Lineage(p) :: if q in fs then fs[q] else Dir;
      assert forall a | a <= p :: IsDir(fs', a) by {
        forall a | a <= p
          ensures IsDir(fs', a)
        {
          if a != [] {
            assert a == p[..|a|];
            assert a in Lineage(p);
            if a in fs {
              assert a == p || IsDir(fs, a);
            }
          }
        }
      }
      assert WellFormed(fs') by {
        forall q | q in fs'
          ensures q != [] && IsDir(fs', Parent(q))
        {
          if q !in fs {
            var i :| 1 <= i <= |p| && q == p[..i];
            assert Parent(q) <= p;
          }
        }
      }
      Some(fs')
    else
      None
  }

  /** Every element of `s` appears exactly once in `xs`, and nothing else does. */
  ghost predicate Enumerates<T>(xs: seq<T>, s: set<T>) {
    && (forall i, j | 0 <= i < j < |xs| :: xs[i] != xs[j])
    && (forall i | 0 <= i < |xs| :: xs[i] in s)
    && (forall x | x in s :: x in xs)
    && |xs| == |s|
  }

  /** Lists a finite set in some order the host chooses. */
  method Enumerate<T>(s: set<T>) returns (xs: seq<T>)
    ensures Enumerates(xs, s)
  {
    xs := [];
    var rest := s;
    while rest != {}
      invariant rest <= s
      invariant forall i, j | 0 <= i < j < |xs| :: xs[i] != xs[j]
      invariant forall i | 0 <= i < |xs| :: xs[i] in s && xs[i] !in rest
      invariant forall x | x in s && x !in rest :: x in xs
      invariant |xs| + |rest| == |s|
      decreases rest
    {
      var x :| x in rest;
      xs := xs + [x];
      rest := rest - {x};
    }
  }

  /**
   * `File.listFiles(filter)`: absent (null) unless `dir` is a directory,
   * otherwise each accepted entry directly inside it once, in no set order.
   */
  method ListFiles(fs: FS, dir: Path, accept: string -> bool) returns (r: Option<seq<Path>>)
    ensures r.Some? <==> IsDir(fs, dir)
    ensures r.Some? ==> Enumerates(r.value, Matching(fs, dir, accept))
  {
    if IsDir(fs, dir) {
      var entries := Enumerate(Matching(fs, dir, accept));
      r := Some(entries);
    } else {
      r := None;
    }
  }

  /** `File.list()`: like `listFiles` but yields entry names. */
  method List(fs: FS, dir: Path) returns (r: Option<seq<string>>)
    ensures r.Some? <==> IsDir(fs, dir)
    ensures r.Some? ==> Enumerates(r.value, NamesIn(fs, dir))
  {
    if IsDir(fs, dir) {
      var names := Enumerate(NamesIn(fs, dir));
      r := Some(names);
    } else {
      r := None;
    }
  }

  /** A name is listed in `dir` exactly when the entry of that name exists there. */
  lemma NamesInIsChildren(fs: FS, dir: Path, name: string)
    ensures name in NamesIn(fs, dir) <==> Child(dir, name) in fs
  {
    var c := Child(dir, name);
    if c in fs {
      assert c in Children(fs, dir);
    }
    if name in NamesIn(fs, dir) {
      var q :| q in Children(fs, dir) && Name(q) == name;
      assert q[..|dir|] == dir && q[|dir|] == name;
      assert q == q[..|dir|] + [q[|dir|]];
    }
  }
}

=== FILE: properties.dfy ===
/**
 * Facts about the storage layout as a whole: which paths can never coincide,
 * when construction succeeds, and what a full session lifecycle yields.
 */
module FileStoreProperties {
  import opened Wrappers
  import opened FileSystem
  import opened FileStore

  /** The sessions zone and the reports zone share no path. */
  lemma ZonesDisjoint(st: Store, p: Path)
    requires Layout(st)
    ensures !(st.sessionsDir <= p && st.reportsDir <= p)
  {
  }

  /**
   * A common file lies outside both zones unless its name is that of one of
   * the two zone directories.
   */
  lemma CommonFileOutsideZones(st: Store, filename: string)
    requires Layout(st)
    requires filename != SessionsPath && filename != PreparedReportsPath
    ensures !(st.sessionsDir <= Child(st.rootDir, filename))
    ensures !(st.reportsDir <= Child(st.rootDir, filename))
  {
  }

  /** Session files sit in the sessions zone, report files in the reports zone. */
  lemma SessionAndReportFilesApart(st: Store, sessionId: string, filename: string, reportId: string)
    requires Layout(st)
    ensures st.sessionsDir <= GetSessionFile(st, sessionId, filename)
    ensures st.reportsDir <= GetReportFile(st, reportId)
    ensures !(st.reportsDir <= GetSessionFile(st, sessionId, filename))
    ensures !(st.sessionsDir <= GetReportFile(st, reportId))
  {
  }

  /**
   * Two different sessions never share a file: each lives in its own directory.
   * This rests on the model's paths, where every session id is exactly one
   * non-separator component; `FileStore` does not validate session ids, and an
   * empty id or one containing a separator would address other paths.
   */
  lemma SessionFilesDisjoint(st: Store, s1: string, f1: string, s2: string, f2: string)
    requires s1 != s2
    ensures GetSessionFile(st, s1, f1) != GetSessionFile(st, s2, f2)
    ensures !(SessionDir(st, s1) <= GetSessionFile(st, s2, f2))
  {
  }

  /** The three report paths of one session are pairwise distinct children of the reports directory. */
  lemma ReportFilesDistinct(st: Store, sessionId: string)
    ensures GetReportFile(st, sessionId) != GetPriorityReportFile(st, sessionId)
    ensures GetReportFile(st, sessionId) != GetNativeReportFile(st, sessionId)
    ensures GetPriorityReportFile(st, sessionId) != GetNativeReportFile(st, sessionId)
    ensures IsChildOf(GetReportFile(st, sessionId), st.reportsDir)
    ensures IsChildOf(GetPriorityReportFile(st, sessionId), st.reportsDir)
    ensures IsChildOf(GetNativeReportFile(st, sessionId), st.reportsDir)
  {
  }

  /** A priority or native report is the default report of the id with the extension appended. */
  lemma SuffixedReportIsDefaultReport(st: Store, sessionId: string)
    ensures GetPriorityReportFile(st, sessionId) == GetReportFile(st, sessionId + PriorityReportExtension)
    ensures GetNativeReportFile(st, sessionId) == GetReportFile(st, sessionId + NativeReportExtension)
  {
  }

  datatype ReportKind = Default | Priority | Native

  function ReportFileOf(st: Store, kind: ReportKind, sessionId: string): Path {
    match kind
    case Default => GetReportFile(st, sessionId)
    case Priority => GetPriorityReportFile(st, sessionId)
    case Native => GetNativeReportFile(st, sessionId)
  }

  function Extension(kind: ReportKind): string {
    match kind
    case Default => ""
    case Priority => PriorityReportExtension
    case Native => NativeReportExtension
  }

  /** A report name is the id, then the extension, which starts with a dot unless empty. */
  lemma ReportNameShape(st: Store, kind: ReportKind, sessionId: string)
    requires '.' !in sessionId
    ensures Name(ReportFileOf(st, kind, sessionId)) == sessionId + Extension(kind)
    ensures forall i | 0 <= i < |sessionId| :: (sessionId + Extension(kind))[i] != '.'
    ensures kind == Default ==> |sessionId + Extension(kind)| == |sessionId|
    ensures kind != Default ==>
      |sessionId + Extension(kind)| > |sessionId| && (sessionId + Extension(kind))[|sessionId|] == '.'
  {
  }

  /**
   * Ids without a dot never make two report paths collide: the report path
   * determines both the session id and the kind of report.
   */
  lemma {:induction false} ReportFilesNeverCollide(st: Store, k1: ReportKind, s1: string, k2: ReportKind, s2: string)
    requires '.' !in s1 && '.' !in s2
    requires ReportFileOf(st, k1, s1) == ReportFileOf(st, k2, s2)
    ensures k1 == k2 && s1 == s2
  {
    ReportNameShape(st, k1, s1);
    ReportNameShape(st, k2, s2);
    var n := s1 + Extension(k1);
    assert n == s2 + Extension(k2);
    assert |s1| == |s2|;
    assert s1 == n[..|s1|] == s2;
    assert Extension(k1) == n[|s1|..] == Extension(k2);
  }

  /** Without that discipline they do collide: an id ending in the priority extension. */
  lemma ReportFilesCollideForDottedIds(st: Store)
    ensures ReportFileOf(st, Default, "abc.priority") == ReportFileOf(st, Priority, "abc")
  {
    assert "abc" + PriorityReportExtension == "abc.priority";
  }

  /** Deleting a session's default report leaves its priority and native reports in place. */
  lemma DeleteReportKeepsVariants(st: Store, fs: FS, sessionId: string)
    requires WellFormed(fs)
    ensures GetPriorityReportFile(st, sessionId) in fs ==>
      GetPriorityReportFile(st, sessionId) in DeleteReport(st, fs, sessionId).1
    ensures GetNativeReportFile(st, sessionId) in fs ==>
      GetNativeReportFile(st, sessionId) in DeleteReport(st, fs, sessionId).1
  {
  }

  /** Constructing again over a ready layout changes nothing and cannot fail. */
  lemma NewIsIdempotent(fs: FS, filesDir: Path, canMake: Path -> bool, st: Store)
    requires Ready(st, fs) && st.rootDir == Child(filesDir, FilesPath)
    ensures New(fs, filesDir, canMake) == Outcome(Ok(st), fs)
  {
  }

  /** Preparing a directory twice is the same as preparing it once. */
  lemma PrepareDirIsIdempotent(fs: FS, dir: Path, canMake: Path -> bool)
    requires WellFormed(fs) && PrepareDir(fs, dir, canMake).result.Ok?
    ensures PrepareDir(PrepareDir(fs, dir, canMake).after, dir, canMake) == PrepareDir(fs, dir, canMake)
  {
  }

  /** A listing of session ids drawn from a state with no session directories is empty. */
  lemma NoIdsListed(st: Store, fs: FS, ids: seq<string>)
    requires Enumerates(ids, NamesIn(fs, st.sessionsDir))
    requires forall id :: SessionDir(st, id) !in fs
    ensures ids == []
  {
    forall name
      ensures name !in NamesIn(fs, st.sessionsDir)
    {
      NamesInIsChildren(fs, st.sessionsDir, name);
      assert SessionDir(st, name) == Child(st.sessionsDir, name);
    }
    assert NamesIn(fs, st.sessionsDir) == {};
  }

  /** A listing of session ids from a state whose one session is `only`. */
  lemma OneIdListed(st: Store, fs: FS, ids: seq<string>, only: string)
    requires Enumerates(ids, NamesIn(fs, st.sessionsDir))
    requires SessionDir(st, only) in fs
    requires forall id | SessionDir(st, id) in fs :: id == only
    ensures ids == [only]
  {
    forall name
      ensures name in NamesIn(fs, st.sessionsDir) <==> name == only
    {
      NamesInIsChildren(fs, st.sessionsDir, name);
      assert SessionDir(st, name) == Child(st.sessionsDir, name);
    }
    assert NamesIn(fs, st.sessionsDir) == {only};
    assert ids[0] in NamesIn(fs, st.sessionsDir);
  }

  /** What a caller's first write of a session file adds to a state without sessions. */
  lemma WriteFirstSessionFile(st: Store, fs: FS, sessionId: string, filename: string)
    requires Ready(st, fs)
    requires forall id :: SessionDir(st, id) !in fs
    ensures WellFormed(fs[SessionDir(st, sessionId) := Dir][GetSessionFile(st, sessionId, filename) := File])
    ensures forall id | SessionDir(st, id) in fs[SessionDir(st, sessionId) := Dir][GetSessionFile(st, sessionId, filename) := File] ::
      id == sessionId
    ensures SessionDir(st, sessionId) in fs[SessionDir(st, sessionId) := Dir][GetSessionFile(st, sessionId, filename) := File]
  {
  }

  /**
   * A store constructed over a base directory with nothing below it has no
   * session directory: construction only makes the zone directories.
   */
  lemma FreshStoreHasNoSessions(st: Store, fs: FS, after: FS)
    requires Layout(st)
    requires forall q | q in fs :: !(Parent(st.rootDir) < q)
    requires ChangedOnlyAlongZones(st, fs, after)
    ensures forall id :: SessionDir(st, id) !in after
  {
  }

  /** Deleting the one open session leaves none. */
  lemma DeletedSessionLeavesNone(st: Store, fs: FS, after: FS, only: string)
    requires forall id | SessionDir(st, id) in fs :: id == only
    requires forall q | q in after :: q in fs
    requires only !in NamesIn(after, st.sessionsDir)
    ensures forall id :: SessionDir(st, id) !in after
  {
  }

  /**
   * One session's lifecycle on a fresh base directory: no open sessions at
   * first, session "abc" once a caller has written a file for it, and none
   * again after its files are deleted.
   */
  method SessionLifecycle() returns (before: seq<string>, during: seq<string>, deleted: bool, after: seq<string>)
    ensures before == [] && during == ["abc"] && deleted && after == []
  {
    var st, fs1;
    st, fs1, before := OpenFreshStore();
    var fs2;
    fs2, during := OpenFirstSession(st, fs1, "abc", "trace.tmp");
    deleted, after := CloseOnlySession(st, fs2, "abc");
  }

  /** The base directory of the app's files on the device: `/data/files`. */
  const FilesDir: Path := ["data", "files"]

  /** A device whose app files directory exists and holds nothing yet. */
  function FreshDevice(): (fs: FS)
    ensures WellFormed(fs) && IsDir(fs, FilesDir)
    ensures forall q | q in fs :: !(FilesDir < q)
  {
    assert Parent(FilesDir) == ["data"];
    map[["data"] := Dir, FilesDir := Dir]
  }

  /** On a fresh device whose host refuses every `mkdirs`, construction throws at the versioned root. */
  lemma NewFailsWhenHostRefuses()
    ensures New(FreshDevice(), FilesDir, _ => false).result == Err(CouldNotCreateDir(LayoutOf(FilesDir).rootDir))
  {
    assert LayoutOf(FilesDir).rootDir !in FreshDevice();
  }

  /** Constructing the store on a fresh device succeeds, and no session is listed. */
  method OpenFreshStore() returns (st: Store, fs: FS, ids: seq<string>)
    ensures Ready(st, fs) && ids == []
    ensures forall id :: SessionDir(st, id) !in fs
  {
    var created := New(FreshDevice(), FilesDir, _ => true);
    st, fs := created.result.value, created.after;
    FreshStoreHasNoSessions(st, FreshDevice(), fs);
    ids := GetAllOpenSessionIds(st, fs);
    NoIdsListed(st, fs, ids);
  }

  /**
   * A caller opens a file of a first session for writing, creating the
   * session's directory; that session is then the only one listed.
   */
  method OpenFirstSession(st: Store, fs: FS, sessionId: string, filename: string) returns (fs': FS, ids: seq<string>)
    requires Ready(st, fs)
    requires forall id :: SessionDir(st, id) !in fs
    ensures WellFormed(fs') && SessionDir(st, sessionId) in fs'
    ensures forall id | SessionDir(st, id) in fs' :: id == sessionId
    ensures ids == [sessionId]
  {
    fs' := fs[SessionDir(st, sessionId) := Dir][GetSessionFile(st, sessionId, filename) := File];
    WriteFirstSessionFile(st, fs, sessionId, filename);
    ids := GetAllOpenSessionIds(st, fs');
    OneIdListed(st, fs', ids, sessionId);
  }

  /** Deleting the files of the only open session succeeds, and then no session is listed. */
  method CloseOnlySession(st: Store, fs: FS, only: string) returns (deleted: bool, ids: seq<string>)
    requires WellFormed(fs) && SessionDir(st, only) in fs
    requires forall id | SessionDir(st, id) in fs :: id == only
    ensures deleted && ids == []
  {
    var after;
    deleted, after := DeleteSessionFiles(st, fs, only);
    DeletedSessionLeavesNone(st, fs, after, only);
    ids := GetAllOpenSessionIds(st, after);
    NoIdsListed(st, after, ids);
  }
}

=== FILE: wrappers.dfy ===
/** Optional values and results that may carry an error, shared by the storage model. */
module Wrappers {

  /** A value that may be absent; stands for a Java reference that may be null. */
  datatype Option<+T> = None | Some(value: T) {

    /** The held value, or `fallback` when the reference is null. */
    function GetOr(fallback: T): T {
      if Some? then value else fallback
    }
  }

  /** Either a value or the error that prevented computing it (a thrown exception). */
  datatype Result<+T, +E> = Ok(value: T) | Err(error: E)
}
